=== FILE: README.md ===
# Piotroski F-score ranking — a Dafny model

`piotrosky.py` ranks the shares of the Brazilian exchange by Joseph
Piotroski's F-score. It starts from the universe listing: one row per
ticker, with its quote ("Cotação") and market columns. It keeps the rows
quoted above zero and resets their "Ranking" column to 0. For every ticker
it then fetches the indicator history from an analytics provider and
evaluates nine yes/no criteria:

1. positive ROA;
2. positive operating cash flow;
3. operating cash flow above net income;
4. rising ROA;
5. falling leverage;
6. rising current ratio;
7. constant share count;
8. rising gross margin;
9. rising asset turnover.

It adds the score column (the number of criteria met) and the nine
criterion columns, puts "Ranking", "Cotação" and "Piotrosky Score" first,
sorts by score (descending) and then quote (ascending), and numbers the
rows 1..n.

The model is split into modules that follow the program:

- `Indicators` holds the provider's records and how the two responses join
  into one history.
- `Criteria` holds the nine criteria and the per-ticker evaluation, with
  its early stop at the first assignment that raises.
- `Scoring` holds the score as a count of satisfied criteria.
- `Table` holds the rows, the positive-quote filter, the ranking reset and
  the rating columns.
- `Ranking` holds the sort and the numbering.
- `Columns` holds the column layout and the reordering.
- `Piotrosky` is the pipeline end to end.
- `Seqs` and `Wrappers` are generic sequence lemmas and `Option`.

The provider's responses are an input map from ticker to `Fetch`, so nothing
is fetched. A record is a decoded JSON object: each key a criterion reads
may be absent, `null` or a number. The nine criteria are evaluated one by
one in the program's order, as the assignments of piotrosky.py:117-125 run.
The first assignment that raises stops that ticker's thread:

- `IndexError` when the history lacks the record it reads;
- `KeyError` when the record lacks the key;
- `TypeError` when `>` or `<` meets a `null` (`==` with a `null` is just
  false, or true for two `null`s).

The earlier assignments are kept and the later criteria stay `false`. So a
one-record history still sets criteria 1–3, and only an empty history or a
failed request always gives the all-false entry.

The program sorts on two keys (score descending, quote ascending). A
multi-key `sort_values` is stable, so rows equal on both keys keep their
listing order. The model sorts by insertion, which is stable too:
`Ranking.SortStable` and `Ranking.RankStable` prove that rows equal on both
keys come out in the order they went in.

## Model

| member | source | states |
|---|---|---|
| Indicators.HistoryOf | piotrosky.py:104-115 | the history is the dashboard records followed by the yearly ones, so its length is the sum of theirs; a failed request reaches no history |
| Indicators.CurrentAndPrior | piotrosky.py:115-120 | record 0 is the first dashboard record, or the first yearly one when the dashboard is empty; record 1 comes from the yearly list as soon as the dashboard holds fewer than two records |
| Criteria.Set | piotrosky.py:117-125 | assigning one criterion's key changes that key only; every other key keeps its value |
| Criteria.Eval | piotrosky.py:117-125 | an assignment raises only for the history, never as a request failure; it raises `IndexError` only when the history lacks the prior record (or has none), and `TypeError` only on a `>` or `<` line |
| Criteria.EvalOutcomes | piotrosky.py:117-125 | every line reads the current record first; no record raises `IndexError` and a missing left key `KeyError`, and then the right operand fails the same way; once both are read `==` stores their equality and `>`/`<` raise `TypeError` on a `null`; a line stores a value exactly when both operands are read and the comparison is `==` or meets two numbers |
| Criteria.FirstRaise | piotrosky.py:117-125 | every assignment before the returned position stores a value, and the one at it raises; the position is 9 exactly when none raises |
| Criteria.CriteriaFlags | piotrosky.py:92-125 | a key of a ticker's entry is true exactly when both requests succeeded, its assignment ran before the first one that raised, and it stored `True`; every other key keeps the initial `False` |
| Criteria.EntryBeforeRaise | piotrosky.py:117-125 | a criterion assigned before the first raising assignment holds the value its assignment stored |
| Criteria.EvalNumeric | piotrosky.py:117-125 | when every key a line reads exists and holds a number (other keys may be missing or `null`), the assignment never raises and stores that line's comparison written out in `Criteria.Test`: `>` for seven lines, `<` for leverage, `==` for the share count |
| Criteria.NumericOperands | piotrosky.py:117-125 | records holding numbers under all keys let every line that reads only them read numbers |
| Criteria.NumericHistory | piotrosky.py:115-125 | with a current and a prior record holding numbers, all nine assignments run and each key holds its line's comparison |
| Criteria.SingleRecord | piotrosky.py:115-120 | with one numeric record, the first three assignments run, the fourth raises `IndexError`, and only criteria 1–3 can be true, each by its comparison |
| Criteria.ShortHistory | piotrosky.py:117-125 | without a prior record the evaluation stops by the fourth assignment and the six year-on-year criteria stay false; with no record it stops at the first with `IndexError` and the entry is all false |
| Criteria.MissingKeyStops | piotrosky.py:117 | a current record without `roa` raises `KeyError` at the first assignment and the entry stays all false |
| Criteria.NullFieldStops | piotrosky.py:117-118 | a `null` `fco` raises `TypeError` at the second assignment; the first criterion keeps its computed value and the other seven stay false |
| Criteria.Toggle | piotrosky.py:117-125 | for every criterion some current and prior records make it the only true key of the entry |
| Criteria.ToggleWith | piotrosky.py:115-125 | numeric current and prior records on which exactly one comparison holds give the entry with only that key true |
| Criteria.StatusMeaning | piotrosky.py:104-125 | a ticker stops for a failed request exactly when its fetch failed, completes exactly when all nine assignments run, and never completes without a prior record |
| Criteria.Evaluate | piotrosky.py:92-125 | assigning the keys one at a time from the all-false entry and stopping at the first raise leaves exactly the closed-form entry `Criteria.Entry`; it completes exactly when no assignment raises, and otherwise reports the exception of the first one that does, which is never a request failure |
| Criteria.FillInfosByTicket | piotrosky.py:91-125 | a ticker's evaluation leaves exactly the closed-form entry `Criteria.CriteriaFlags`, and the way it ended is `Criteria.StatusOf`; an empty history leaves all nine keys false, and fewer than two records leave the six year-on-year criteria false |
| Criteria.RunThread | piotrosky.py:85-89 | a thread leaves the ticker's entry as the evaluation left it, whether it completed or raised |
| Criteria.FillInfos | piotrosky.py:79-89 | one entry per ticker of the universe, and no other, each the criteria entry of that ticker's response |
| Scoring.BoolToInt | piotrosky.py:147 | a flag counts 1 exactly when it is true, else 0 |
| Scoring.Score | piotrosky.py:147-163 | the nine additions of 0 or 1 give at most 9 |
| Scoring.NineCriteria | piotrosky.py:92-102 | the assignment order lists every criterion, and there are nine distinct ones |
| Scoring.ScoreIsCount | piotrosky.py:145-164 | the sum the program accumulates is the number of satisfied criteria, between 0 and 9 |
| Scoring.ScoreZero | piotrosky.py:92-102 | the score is 0 if and only if the entry is the all-false one |
| Scoring.ScoreNine | piotrosky.py:147-164 | the score is 9 if and only if every criterion holds |
| Scoring.SingleCriterion | piotrosky.py:147-164 | each criterion alone contributes exactly 1, and only itself, to the score |
| Table.Tickers | piotrosky.py:84 | one ticker per row, in table order |
| Table.FilterPositive | piotrosky.py:53 | a row survives if and only if it is a listing row quoted above zero, as many times as it occurs in the listing |
| Table.FilterPositiveOrder | piotrosky.py:53 | the filter keeps the listing order (it distributes over concatenation) and filtering twice changes nothing |
| Table.SetRanking | piotrosky.py:55 | every row gets the given ranking and keeps all its other columns |
| Table.AddPiotroskyColumns | piotrosky.py:132-142 | every row starts with score 0 and every criterion false, so its score already counts its satisfied criteria (none) |
| Table.FillStep | piotrosky.py:147-148 | one statement pair adds 1 to the score exactly when the entry holds the criterion, sets that criterion's column to the entry's value, and changes no other column |
| Table.FillSteps | piotrosky.py:147-164 | any number of statement pairs keeps ticker, quote, ranking and the market columns |
| Table.FillStepsScore | piotrosky.py:147-163 | after the first k statement pairs the score has grown by the number of the first k criteria the entry satisfies |
| Table.FillStepsFlags | piotrosky.py:148-164 | after the first k statement pairs the first k criterion columns hold the entry's values and the later ones are untouched |
| Table.FillRow | piotrosky.py:145-164 | the nine statement pairs of one row add the entry's score to the row's score and copy the entry into the criterion columns |
| Table.FillSpecialInfos | piotrosky.py:144-165 | each row's score grows by the number of criteria its ticker's entry satisfies, its criterion columns become that entry, and its other columns are kept |
| Table.AddRatings | piotrosky.py:127-129 | each row ends with its ticker's entry in the criterion columns and, as score, the number of criteria that entry satisfies (0..9); the other columns are kept |
| Ranking.InOrderTotalPreorder | piotrosky.py:178 | the (score descending, quote ascending) comparison is reflexive, total and transitive |
| Ranking.Insert | piotrosky.py:178 | inserting into a sorted table keeps it sorted and adds exactly the inserted row |
| Ranking.SortRows | piotrosky.py:178 | the result is sorted by score descending then quote ascending, and is a permutation of the input |
| Ranking.SortPermutation | piotrosky.py:178 | with the ranking column ignored, sorting is still a permutation |
| Ranking.InsertStable | piotrosky.py:178 | inserting a row keeps, among the rows equal to a given one on both sort keys, the inserted row first and the others in their order |
| Ranking.SortStable | piotrosky.py:178 | rows equal on both sort keys come out of the sort in the order they went in |
| Ranking.RankStable | piotrosky.py:178-180 | after ranking, rows equal on both sort keys keep their listing order (ranking column aside) |
| Ranking.SortSortedIsIdentity | piotrosky.py:178 | rows already in order are left in place |
| Ranking.AssignRanking | piotrosky.py:180 | row i gets ranking i+1 and keeps its other columns |
| Ranking.Rank | piotrosky.py:178-180 | the ranked table is sorted, numbered 1..n and a permutation of the input up to the ranking column; a strictly higher score always has a strictly smaller ranking |
| Ranking.RankIdempotent | piotrosky.py:178-180 | ranking a ranked table again changes nothing |
| Columns.AddColumn | piotrosky.py:133-142 | assigning a column by name keeps the existing columns in place; an existing name adds nothing and a new one is appended, so the layout grows by exactly one column when the name is new, and labels that were unique stay unique |
| Columns.AddColumns | piotrosky.py:133-142 | the old columns stay a prefix in place, the result holds exactly the old columns and the new names, and labels that were unique stay unique |
| Columns.Reorder | piotrosky.py:168-170 | the layout succeeds exactly when ranking, quote and score are all present; it then starts with those three, keeps every column, and holds none of the three after them |
| Columns.ReorderKeepsOrder | piotrosky.py:170 | the columns after the leading three keep their original relative order |
| Columns.ReorderIdempotent | piotrosky.py:168-170 | reordering an already reordered layout changes nothing |
| Columns.FinalLayout | piotrosky.py:55-61 | after the ranking and rating columns are added, the reordering succeeds if and only if the listing has a quote column, and no listing column is lost |
| Piotrosky.Rated | piotrosky.py:55-59 | a rated row keeps its ticker, quote and market columns, has ranking 0, carries its ticker's criteria, and scores their count, 0..9 |
| Piotrosky.RatedAll | piotrosky.py:53-59 | one rated row per listed row, in the same order |
| Piotrosky.RatedRows | piotrosky.py:55-59 | adding the ratings to the rows reset to ranking 0, from entries that are their tickers' criteria, gives the rated rows |
| Piotrosky.PopulateShares | piotrosky.py:39-63 | the unsorted table is, in listing order, the rows quoted above zero, each with ranking 0 and rated from its ticker's response |
| Piotrosky.RankUniverse | piotrosky.py:172-180 | the final table is sorted, numbered 1..n, a permutation of the rated positive-quote rows up to the ranking column; every row is quoted above zero, carries its ticker's criteria and scores 0..9; a ticker whose fetch failed scores 0 with all criteria false |
| Piotrosky.RankedRow | piotrosky.py:176-180 | a row that, whatever its ranking, is a rated row quoted above zero carries its ticker's criteria and a score of 0..9, which is 0 with every criterion false when that ticker's fetch failed |
| Piotrosky.ExampleRanking | piotrosky.py:178-180 | two rows scoring 9 quoted 10 and 5 and one scoring 3 rank as: the cheaper 9 first, the other 9 second, the 3 last |

## Left out

- The HTTP requests, cookie jar, headers and JSON decoding (piotrosky.py:80-83, 104-113) are not modelled. The decoded responses, or the failure of either request, are the input `Fetch`.
- The threads (piotrosky.py:85-89) are not modelled. Each writes its own key of the shared entries map, so `Criteria.FillInfos` builds the same map one ticker after another. A thread that dies leaves the entry it had written so far.
- The command-line `eval`, the year argument and the module globals (piotrosky.py:40-46) are not modelled. Neither are the listing sources `bovespa.shares` and `fundamentus.shares` (piotrosky.py:48-51), whose result is the input `universe`. `bovespa`, `fundamentus`, `backtest` and `waitingbar` are not part of this model.
- Display, the progress bar and the `print` override (piotrosky.py:23-25, 173-174, 182-184) are left out because they are output only.
- Floating-point indicators and quotes are mathematical reals. The program only compares them, so no NaN or rounding behaviour is modelled.
- A JSON field is a number or `null`. Strings, booleans, arrays and objects under an indicator key are not modelled. Neither is a response that decodes to something other than a list of objects: `Fetch` holds lists of records only.
- `Ranking.Rank` and `Piotrosky.RankUniverse` do not state the order of rows equal on both sort keys in their own contracts. The two-key sort keeps them in listing order, and `Ranking.SortStable` and `Ranking.RankStable` state that separately.
- The table is a sequence of rows, and the column layout (`Columns`) is modelled separately on column names. The listing's column labels are assumed to be unique; adding columns keeps them so (`Columns.AddColumn`, `Columns.AddColumns`).
- The chained assignment `shares[col][index] += …` (piotrosky.py:147-164) is modelled as writing the row. Pandas' copy-versus-view behaviour is not modelled.
- `Columns.Reorder` returns `None` where pandas raises `KeyError` for a missing leading column. The exception itself is not modelled.
- An empty universe after the filter gives an empty table. The model treats it like any other table.

=== FILE: columns.dfy ===
/** The column layout of the table: the columns the program appends and the
    final reordering that puts ranking, quote and score first
    (piotrosky.py:55, 132-142, 167-170). */
module Columns {
  import opened Wrappers
  import Seqs

  const Ranking := "Ranking"
  const Quote := "Cotação"
  const ScoreColumn := "Piotrosky Score"

  /** The columns `reorder_columns` moves to the front, in this order. */
  const Leading: seq<string> := [Ranking, Quote, ScoreColumn]

  /** The score column and the nine criterion columns, in the order the
      program creates them. */
  const RatingColumns: seq<string> := [
    ScoreColumn, "ROA positivo", "FCO positivo", "FCO > Lucro Líquido", "ROA crescente",
    "Alavancagem decrescente", "Liquidez Corrente crescente", "No Ações constante",
    "Margem Bruta crescente", "Giro Ativo crescente"
  ]

  predicate NotLeading(c: string) {
    c !in Leading
  }

  /** Assigning a whole column by name: an existing column keeps its place,
      a new one is appended. */
  function AddColumn(cols: seq<string>, name: string): (r: seq<string>)
    ensures name in r
    ensures forall c :: c in r <==> c in cols || c == name
    ensures cols <= r
    ensures |r| == |cols| + (if name in cols then 0 else 1)
    ensures Seqs.Distinct(cols) ==> Seqs.Distinct(r)
  {
    if name in cols then cols else cols + [name]
  }

  function AddColumns(cols: seq<string>, names: seq<string>): (r: seq<string>)
    ensures forall c :: c in r <==> c in cols || c in names
    ensures cols <= r
    ensures Seqs.Distinct(cols) ==> Seqs.Distinct(r)
    decreases names
  {
    if names == [] then cols else AddColumns(AddColumn(cols, names[0]), names[1..])
  }

  /** Puts `Leading` first and the other columns after it in their original
      order. Selecting a leading column the table lacks fails, as the
      program's column selection does. */
  function Reorder(cols: seq<string>): (r: Option<seq<string>>)
    ensures r.Some? <==> forall c :: c in Leading ==> c in cols
    ensures r.Some? ==> |r.value| >= 3 && r.value[..3] == Leading
    ensures r.Some? ==> forall c :: c in r.value <==> c in cols
    ensures r.Some? ==> forall i :: 3 <= i < |r.value| ==> r.value[i] !in Leading
  {
    if Ranking in cols && Quote in cols && ScoreColumn in cols then
      Some(Leading + Seqs.Filter(cols, NotLeading))
    else
      None
  }

  /** The columns after the leading three keep their original relative
      order: wherever the layout is cut in two, the non-leading columns of the
      first part all come before those of the second part. */
  lemma ReorderKeepsOrder(before: seq<string>, after: seq<string>)
    requires Reorder(before + after).Some?
    ensures Reorder(before + after).value[3..] == Seqs.Filter(before, NotLeading) + Seqs.Filter(after, NotLeading)
  {
    Seqs.FilterAppend(before, after, NotLeading);
  }

  /** Reordering an already reordered layout changes nothing. */
  lemma ReorderIdempotent(cols: seq<string>)
    requires Reorder(cols).Some?
    ensures Reorder(Reorder(cols).value) == Reorder(cols)
  {
    var once := Reorder(cols).value;
    var rest := Seqs.Filter(cols, NotLeading);
    assert once == Leading + rest;
    Seqs.FilterAppend(Leading, rest, NotLeading);
    Seqs.FilterNone(Leading, NotLeading);
    Seqs.FilterIdempotent(cols, NotLeading);
    assert [] + rest == rest;
  }

  /** The layout the program ends with: the listing's columns, `Ranking`
      (piotrosky.py:55), the rating columns (piotrosky.py:133-142), then the
      reordering (piotrosky.py:61). It succeeds exactly when the listing has
      a quote column, and then every column of the listing survives. */
  lemma FinalLayout(listing: seq<string>)
    ensures Reorder(AddColumns(AddColumn(listing, Ranking), RatingColumns)).Some? <==> Quote in listing
    ensures forall c :: c in listing ==>
      Reorder(AddColumns(AddColumn(listing, Ranking), RatingColumns)).Some? ==>
      c in Reorder(AddColumns(AddColumn(listing, Ranking), RatingColumns)).value
  {
    var cols := AddColumns(AddColumn(listing, Ranking), RatingColumns);
    QuoteIsNotAdded();
    assert Ranking in cols && ScoreColumn in cols;
    assert Quote in cols <==> Quote in listing;
  }

  lemma QuoteIsNotAdded()
    ensures ScoreColumn in RatingColumns
    ensures Quote != Ranking && Quote !in RatingColumns
  {
  }
}

=== FILE: criteria.dfy ===
/** The nine Piotroski criteria and their evaluation for one ticker
    (piotrosky.py:91-125) and for the whole universe (piotrosky.py:79-89). */
module Criteria {
  import opened Indicators

  /** The nine criteria, named after the keys of the per-ticker entry. */
  datatype Criterion =
    | RoaPositivo             // 1) ROA > 0
    | FcoPositivo             // 2) FCO > 0
    | FcoSaudavel             // 3) FCO > net income
    | RoaCrescente            // 4) ROA grows
    | AlavancagemDecrescente  // 5) leverage shrinks
    | LiquidezCrescente       // 6) current ratio grows
    | NoAcoesConstante        // 7) share count unchanged
    | MargemBrutaCrescente    // 8) gross margin grows
    | GiroAtivoCrescente      // 9) asset turnover grows

  /** The order in which the program assigns the criteria. */
  const Order: seq<Criterion> := [
    RoaPositivo, FcoPositivo, FcoSaudavel, RoaCrescente, AlavancagemDecrescente,
    LiquidezCrescente, NoAcoesConstante, MargemBrutaCrescente, GiroAtivoCrescente
  ]

  /** Where a criterion stands in `Order`. */
  function Position(c: Criterion): (i: nat)
    ensures i < |Order| && Order[i] == c
  {
    match c
    case RoaPositivo => 0
    case FcoPositivo => 1
    case FcoSaudavel => 2
    case RoaCrescente => 3
    case AlavancagemDecrescente => 4
    case LiquidezCrescente => 5
    case NoAcoesConstante => 6
    case MargemBrutaCrescente => 7
    case GiroAtivoCrescente => 8
  }

  /** `Position` and `Order` are inverse to each other. */
  lemma OrderIndexes()
    ensures forall j :: 0 <= j < |Order| ==> Position(Order[j]) == j
  {
  }

  /** The per-ticker entry: one boolean per criterion, the value of
      criterion `c` at index `Position(c)`. */
  type Flags = s: seq<bool> | |s| == 9
    witness [false, false, false, false, false, false, false, false, false]

  /** The entry every ticker starts with (piotrosky.py:92-102). */
  const AllFalse: Flags := [false, false, false, false, false, false, false, false, false]

  /** The value the entry holds for criterion `c`. */
  function Get(f: Flags, c: Criterion): bool {
    f[Position(c)]
  }

  /** Assigning one key of the entry changes that key and no other. */
  function Set(f: Flags, c: Criterion, v: bool): (r: Flags)
    ensures Get(r, c) == v
    ensures forall d :: d != c ==> Get(r, d) == Get(f, d)
  {
    f[Position(c) := v]
  }

  /** Two entries that agree on every criterion are the same entry. */
  lemma FlagsExtensional(f: Flags, g: Flags)
    requires forall c :: Get(f, c) == Get(g, c)
    ensures f == g
  {
    forall j | 0 <= j < 9 ensures f[j] == g[j] {
      assert Position(Order[j]) == j by { OrderIndexes(); }
      assert Get(f, Order[j]) == Get(g, Order[j]);
    }
  }

  /** Why the evaluation of a ticker stopped early. */
  datatype Failure =
    | RequestFailed  // a request or its decoding failed (piotrosky.py:106-113)
    | IndexError     // the history lacks a record an assignment reads
    | KeyError       // a record lacks a key an assignment reads
    | TypeError      // an ordering comparison met a `null`

  datatype Status = Completed | Stopped(reason: Failure)

  /** One side of a comparison: a key of a history record, or the literal 0. */
  datatype Operand = Read(record: nat, key: Key) | Zero

  datatype Comparison = Greater | Less | Equal

  /** The comparison one assignment makes. */
  datatype Line = Line(left: Operand, op: Comparison, right: Operand)

  /** The right-hand side of each assignment of piotrosky.py:117-125. */
  function LineOf(c: Criterion): Line {
    match c
    case RoaPositivo => Line(Read(0, Roa), Greater, Zero)
    case FcoPositivo => Line(Read(0, Fco), Greater, Zero)
    case FcoSaudavel => Line(Read(0, Fco), Greater, Read(0, LucroLiquido))
    case RoaCrescente => Line(Read(0, Roa), Greater, Read(1, Roa))
    case AlavancagemDecrescente => Line(Read(0, Dlpl), Less, Read(1, Dlpl))
    case LiquidezCrescente => Line(Read(0, LiqCorrent), Greater, Read(1, LiqCorrent))
    case NoAcoesConstante => Line(Read(0, QntAcoes), Equal, Read(1, QntAcoes))
    case MargemBrutaCrescente => Line(Read(0, MargBruta), Greater, Read(1, MargBruta))
    case GiroAtivoCrescente => Line(Read(0, GiroAtivos), Greater, Read(1, GiroAtivos))
  }

  /** The last history index a criterion reads: the first three look at the
      current record only, the other six also at the prior one. */
  function LastRecordRead(c: Criterion): nat {
    if Position(c) < 3 then 0 else 1
  }

  datatype Value = Got(field: Field) | Missing(reason: Failure)

  /** What an assignment does: store a boolean, or raise. */
  datatype Outcome = Assigned(b: bool) | Raised(reason: Failure)

  /** `h[i][key]`: past the end of the history it raises IndexError, on a
      key the record lacks KeyError. */
  function ReadOperand(o: Operand, h: seq<Record>): Value {
    match o
    case Zero => Got(Num(0.0))
    case Read(i, key) =>
      if i >= |h| then Missing(IndexError)
      else if key !in h[i] then Missing(KeyError)
      else Got(h[i][key])
  }

  /** Python's comparison of two JSON values: `null` equals only `null`, and
      ordering a `null` against anything raises TypeError. */
  function Compare(op: Comparison, a: Field, b: Field): Outcome {
    match op
    case Equal => Assigned(a == b)
    case Greater => if a.Null? || b.Null? then Raised(TypeError) else Assigned(a.x > b.x)
    case Less => if a.Null? || b.Null? then Raised(TypeError) else Assigned(a.x < b.x)
  }

  /** Runs one assignment's right-hand side in Python's order: the left
      operand, then the right one, then the comparison. Only the history can
      make it raise, never a request. */
  function Eval(c: Criterion, h: seq<Record>): (o: Outcome)
    ensures o.Raised? ==> o.reason != RequestFailed
    ensures o == Raised(IndexError) ==> |h| <= LastRecordRead(c)
    ensures o == Raised(TypeError) ==> LineOf(c).op != Equal
  {
    var line := LineOf(c);
    match ReadOperand(line.left, h)
    case Missing(reason) => Raised(reason)
    case Got(a) =>
      match ReadOperand(line.right, h)
      case Missing(reason) => Raised(reason)
      case Got(b) => Compare(line.op, a, b)
  }

  /** The position in `Order`, from `i` on, of the first assignment that
      raises, or 9 when none does. */
  function FirstRaise(h: seq<Record>, i: nat): (k: nat)
    requires i <= |Order|
    ensures i <= k <= |Order|
    ensures forall j :: i <= j < k ==> Eval(Order[j], h).Assigned?
    ensures k < |Order| ==> Eval(Order[k], h).Raised?
    decreases |Order| - i
  {
    if i == |Order| || Eval(Order[i], h).Raised? then i else FirstRaise(h, i + 1)
  }

  /** The entry the program leaves for a history: every criterion assigned
      before the first assignment that raises holds its comparison's value,
      and the rest keep the initial `false`. */
  function Entry(h: seq<Record>): Flags {
    var k := FirstRaise(h, 0);
    seq(9, j requires 0 <= j < 9 => j < k && Eval(Order[j], h).b)
  }

  /** The entry a ticker ends with: the all-false default when its fetch
      failed, else the entry its history leaves. */
  function CriteriaFlags(f: Fetch): (r: Flags)
    ensures forall c :: Get(r, c) <==>
      f.Fetched? && Position(c) < FirstRaise(HistoryOf(f), 0) && Eval(c, HistoryOf(f)) == Assigned(true)
  {
    if f.FetchFailed? then AllFalse else Entry(HistoryOf(f))
  }

  /** How the evaluation of a ticker ends: stopped by the failed request,
      stopped by the first assignment that raises, or completed. */
  function StatusOf(f: Fetch): Status {
    if f.FetchFailed? then Stopped(RequestFailed)
    else
      var h := HistoryOf(f);
      var k := FirstRaise(h, 0);
      if k == |Order| then Completed else Stopped(Eval(Order[k], h).reason)
  }

  /** The evaluation completes exactly when every assignment runs, and it
      stops for a failed request exactly when the fetch failed; a history
      that lacks the prior record never completes. */
  lemma StatusMeaning(f: Fetch)
    ensures StatusOf(f) == Stopped(RequestFailed) <==> f.FetchFailed?
    ensures StatusOf(f) == Completed <==> f.Fetched? && FirstRaise(HistoryOf(f), 0) == |Order|
    ensures f.Fetched? && |HistoryOf(f)| < 2 ==> StatusOf(f).Stopped?
  {
    ShortHistory(HistoryOf(f));
  }

  /** An operand can be read: the literal 0, or a key its record holds. */
  predicate Reaches(o: Operand, h: seq<Record>) {
    o.Zero? || (o.record < |h| && o.key in h[o.record])
  }

  /** What every line of piotrosky.py:117-125 does with the history. Its
      left operand is a key of the current record. A missing current record
      raises IndexError and a missing key KeyError, before the right operand
      is looked at; the right operand fails the same way. Once both are
      read, `==` stores whether they are equal (two `null`s included), and
      `>` or `<` raises TypeError on a `null`. The line stores a value
      exactly when both operands are read and the comparison is `==` or
      meets two numbers. */
  lemma EvalOutcomes(c: Criterion, h: seq<Record>)
    ensures LineOf(c).left.Read? && LineOf(c).left.record == 0
    ensures |h| == 0 ==> Eval(c, h) == Raised(IndexError)
    ensures |h| >= 1 && LineOf(c).left.key !in h[0] ==> Eval(c, h) == Raised(KeyError)
    ensures var r := LineOf(c).right;
      Reaches(LineOf(c).left, h) && r.Read? && r.record >= |h| ==> Eval(c, h) == Raised(IndexError)
    ensures var r := LineOf(c).right;
      Reaches(LineOf(c).left, h) && r.Read? && r.record < |h| && r.key !in h[r.record] ==>
        Eval(c, h) == Raised(KeyError)
    ensures var l, r := LineOf(c).left, LineOf(c).right;
      Reaches(l, h) && Reaches(r, h) && LineOf(c).op == Equal ==>
        Eval(c, h) == Assigned(ReadOperand(l, h).field == ReadOperand(r, h).field)
    ensures var l, r := LineOf(c).left, LineOf(c).right;
      Reaches(l, h) && Reaches(r, h) && LineOf(c).op != Equal &&
      (ReadOperand(l, h).field.Null? || ReadOperand(r, h).field.Null?) ==>
        Eval(c, h) == Raised(TypeError)
    ensures Eval(c, h).Assigned? <==>
      Reaches(LineOf(c).left, h) && Reaches(LineOf(c).right, h) &&
      (LineOf(c).op == Equal || (OperandNumeric(LineOf(c).left, h) && OperandNumeric(LineOf(c).right, h)))
  {
  }

  /** An operand reads a number: the literal 0, or a key its record holds
      with a number. */
  predicate OperandNumeric(o: Operand, h: seq<Record>) {
    o.Zero? || (o.record < |h| && o.key in h[o.record] && h[o.record][o.key].Num?)
  }

  /** The keys a criterion's line reads exist and carry numbers; the other
      keys of the records may be anything. */
  predicate OperandsNumeric(c: Criterion, h: seq<Record>) {
    OperandNumeric(LineOf(c).left, h) && OperandNumeric(LineOf(c).right, h)
  }

  /** The nine criteria written out on numeric records. */
  function Test(c: Criterion, h: seq<Record>): bool
    requires OperandsNumeric(c, h)
  {
    var cur := h[0];
    match c
    case RoaPositivo => cur[Roa].x > 0.0
    case FcoPositivo => cur[Fco].x > 0.0
    case FcoSaudavel => cur[Fco].x > cur[LucroLiquido].x
    case RoaCrescente => cur[Roa].x > h[1][Roa].x
    case AlavancagemDecrescente => cur[Dlpl].x < h[1][Dlpl].x
    case LiquidezCrescente => cur[LiqCorrent].x > h[1][LiqCorrent].x
    case NoAcoesConstante => cur[QntAcoes].x == h[1][QntAcoes].x
    case MargemBrutaCrescente => cur[MargBruta].x > h[1][MargBruta].x
    case GiroAtivoCrescente => cur[GiroAtivos].x > h[1][GiroAtivos].x
  }

  /** When the keys a line reads exist and carry numbers, its assignment
      never raises and stores the written-out criterion, whatever the other
      keys hold. */
  lemma EvalNumeric(c: Criterion, h: seq<Record>)
    requires OperandsNumeric(c, h)
    ensures Eval(c, h) == Assigned(Test(c, h))
  {
  }

  /** A line whose records exist and carry numbers under every key reads
      only numbers. */
  lemma NumericOperands(c: Criterion, h: seq<Record>)
    requires LastRecordRead(c) < |h| && Numeric(h[0])
    requires LastRecordRead(c) == 1 ==> Numeric(h[1])
    ensures OperandsNumeric(c, h)
  {
  }

  /** Two numeric records: the evaluation runs to the end and the entry is
      the nine criteria written out. */
  lemma NumericHistory(h: seq<Record>)
    requires |h| >= 2 && Numeric(h[0]) && Numeric(h[1])
    ensures FirstRaise(h, 0) == |Order|
    ensures forall c :: Get(Entry(h), c) == Test(c, h)
  {
    NumericRunsToEnd(h);
    forall c {
      NumericCriterion(h, c);
    }
  }

  lemma NumericCriterion(h: seq<Record>, c: Criterion)
    requires |h| >= 2 && Numeric(h[0]) && Numeric(h[1])
    requires FirstRaise(h, 0) == |Order|
    ensures Get(Entry(h), c) == Test(c, h)
  {
    NumericOperands(c, h);
    EvalNumeric(c, h);
    EntryBeforeRaise(h, c);
  }

  lemma NumericRunsToEnd(h: seq<Record>)
    requires |h| >= 2 && Numeric(h[0]) && Numeric(h[1])
    ensures FirstRaise(h, 0) == |Order|
  {
    var k := FirstRaise(h, 0);
    if k < |Order| {
      NumericOperands(Order[k], h);
      EvalNumeric(Order[k], h);
    }
  }

  /** A criterion assigned before the first raise holds its comparison's
      value in the entry. */
  lemma EntryBeforeRaise(h: seq<Record>, c: Criterion)
    requires Position(c) < FirstRaise(h, 0)
    ensures Eval(c, h).Assigned? && Get(Entry(h), c) == Eval(c, h).b
  {
  }

  /** A single numeric record: the first three criteria are assigned, and
      the fourth raises IndexError, leaving the six year-on-year criteria
      `false`. */
  lemma SingleRecord(h: seq<Record>)
    requires |h| == 1 && Numeric(h[0])
    ensures FirstRaise(h, 0) == 3 && Eval(Order[3], h) == Raised(IndexError)
    ensures forall c :: Get(Entry(h), c) == (LastRecordRead(c) == 0 && Test(c, h))
  {
  }

  /** A numeric record with the given values, in the order of `Key`. */
  function Rec(roa: real, fco: real, lucro: real, dlpl: real, liq: real, qnt: real, marg: real, giro: real): (r: Record)
    ensures Numeric(r)
  {
    var r := map[Roa := Num(roa), Fco := Num(fco), LucroLiquido := Num(lucro), Dlpl := Num(dlpl),
                 LiqCorrent := Num(liq), QntAcoes := Num(qnt), MargBruta := Num(marg), GiroAtivos := Num(giro)];
    KeysNumeric(r);
    r
  }

  /** A record with a number under each of the eight keys is numeric. */
  lemma KeysNumeric(r: Record)
    requires Roa in r && Fco in r && LucroLiquido in r && Dlpl in r
    requires LiqCorrent in r && QntAcoes in r && MargBruta in r && GiroAtivos in r
    requires r[Roa].Num? && r[Fco].Num? && r[LucroLiquido].Num? && r[Dlpl].Num?
    requires r[LiqCorrent].Num? && r[QntAcoes].Num? && r[MargBruta].Num? && r[GiroAtivos].Num?
    ensures Numeric(r)
  {
    forall k: Key ensures k in r && r[k].Num? {
      match k
      case Roa =>
      case Fco =>
      case LucroLiquido =>
      case Dlpl =>
      case LiqCorrent =>
      case QntAcoes =>
      case MargBruta =>
      case GiroAtivos =>
    }
  }

  /** Every criterion can be switched on alone: some current and prior
      records satisfy it and none of the other eight. */
  lemma Toggle(c: Criterion)
    ensures exists cur: Record, prior: Record :: CriteriaFlags(Fetched([cur], [prior])) == Set(AllFalse, c, true)
  {
    var cur, prior := Rec(0.0, 0.0, 0.0, 0.0, 0.0, 0.0, 0.0, 0.0), Rec(0.0, 0.0, 0.0, 0.0, 0.0, 1.0, 0.0, 0.0);
    match c {
      case RoaPositivo =>
        cur, prior := Rec(1.0, 0.0, 0.0, 0.0, 0.0, 0.0, 0.0, 0.0), Rec(1.0, 0.0, 0.0, 0.0, 0.0, 1.0, 0.0, 0.0);
      case FcoPositivo => cur := Rec(0.0, 1.0, 1.0, 0.0, 0.0, 0.0, 0.0, 0.0);
      case FcoSaudavel => cur := Rec(0.0, 0.0, -1.0, 0.0, 0.0, 0.0, 0.0, 0.0);
      case RoaCrescente => prior := Rec(-1.0, 0.0, 0.0, 0.0, 0.0, 1.0, 0.0, 0.0);
      case AlavancagemDecrescente => prior := Rec(0.0, 0.0, 0.0, 1.0, 0.0, 1.0, 0.0, 0.0);
      case LiquidezCrescente => cur := Rec(0.0, 0.0, 0.0, 0.0, 1.0, 0.0, 0.0, 0.0);
      case NoAcoesConstante => prior := Rec(0.0, 0.0, 0.0, 0.0, 0.0, 0.0, 0.0, 0.0);
      case MargemBrutaCrescente => cur := Rec(0.0, 0.0, 0.0, 0.0, 0.0, 0.0, 1.0, 0.0);
      case GiroAtivoCrescente => cur := Rec(0.0, 0.0, 0.0, 0.0, 0.0, 0.0, 0.0, 1.0);
    }
    ToggleWith(c, cur, prior);
  }

  /** Records on which exactly criterion `c` holds switch on `c` alone. */
  lemma ToggleWith(c: Criterion, cur: Record, prior: Record)
    requires Numeric(cur) && Numeric(prior)
    requires forall d :: Test(d, [cur, prior]) == (d == c)
    ensures CriteriaFlags(Fetched([cur], [prior])) == Set(AllFalse, c, true)
  {
    var h := HistoryOf(Fetched([cur], [prior]));
    assert h == [cur, prior];
    NumericHistory(h);
    FlagsExtensional(Entry(h), Set(AllFalse, c, true));
  }

  /** Without a prior record the evaluation stops by the fourth assignment,
      so the six year-on-year criteria stay `false`; without any record it
      stops at the first, and the entry is all `false`. */
  lemma ShortHistory(h: seq<Record>)
    ensures |h| < 2 ==> FirstRaise(h, 0) <= 3
    ensures |h| < 2 ==> forall c :: LastRecordRead(c) == 1 ==> !Get(Entry(h), c)
    ensures |h| == 0 ==> FirstRaise(h, 0) == 0 && Eval(Order[0], h) == Raised(IndexError)
    ensures |h| == 0 ==> Entry(h) == AllFalse
  {
    if |h| < 2 {
      assert Eval(Order[3], h).Raised?;
    }
  }

  /** A current record without "roa" stops the evaluation at the first
      assignment with KeyError, so the entry stays all `false`. */
  lemma MissingKeyStops(h: seq<Record>)
    requires |h| >= 1 && Roa !in h[0]
    ensures FirstRaise(h, 0) == 0 && Eval(Order[0], h) == Raised(KeyError)
    ensures Entry(h) == AllFalse
  {
  }

  /** A `null` operating cash flow stops the evaluation at the second
      assignment with TypeError; the first criterion keeps its value. */
  lemma NullFieldStops(h: seq<Record>)
    requires |h| >= 1 && Roa in h[0] && h[0][Roa].Num? && Fco in h[0] && h[0][Fco].Null?
    ensures FirstRaise(h, 0) == 1 && Eval(Order[1], h) == Raised(TypeError)
    ensures Entry(h) == Set(AllFalse, RoaPositivo, h[0][Roa].x > 0.0)
  {
  }

  /** Runs the assignments of piotrosky.py:117-125 on a history the way the
      program does: the entry starts all `false`, the criteria are assigned
      one at a time in `Order`, and the first assignment that raises stops
      the evaluation, leaving the earlier assignments in place and the later
      keys `false`. */
  method Evaluate(h: seq<Record>) returns (flags: Flags, status: Status)
    ensures flags == Entry(h)
    ensures status.Stopped? ==> status.reason != RequestFailed
    ensures status == Completed <==> FirstRaise(h, 0) == |Order|
    ensures status.Stopped? ==> Eval(Order[FirstRaise(h, 0)], h) == Raised(status.reason)
  {
    flags := AllFalse;
    ghost var k := FirstRaise(h, 0);
    ghost var expected := Entry(h);
    OrderIndexes();
    var i := 0;
    while i < |Order|
      invariant 0 <= i <= k
      invariant forall j :: 0 <= j < i ==> flags[j] == expected[j]
      invariant forall j :: i <= j < 9 ==> !flags[j]
    {
      var c := Order[i];
      var outcome := Eval(c, h);
      if outcome.Raised? {
        assert flags == expected;
        return flags, Stopped(outcome.reason);
      }
      assert Position(c) == i;
      flags := Set(flags, c, outcome.b);
      i := i + 1;
    }
    assert flags == expected;
    status := Completed;
  }

  /** Evaluates one ticker: a failed request stops it before any
      assignment, and otherwise its history is evaluated. The entry is the
      closed form `CriteriaFlags`, and the way it ended is `StatusOf`. */
  method FillInfosByTicket(fetch: Fetch) returns (flags: Flags, status: Status)
    ensures flags == CriteriaFlags(fetch)
    ensures status == StatusOf(fetch)
    ensures |HistoryOf(fetch)| == 0 ==> flags == AllFalse
    ensures |HistoryOf(fetch)| < 2 ==> forall c :: LastRecordRead(c) == 1 ==> !Get(flags, c)
  {
    if fetch.FetchFailed? {
      return AllFalse, Stopped(RequestFailed);
    }
    var h := HistoryOf(fetch);
    flags, status := Evaluate(h);
    ShortHistory(h);
  }

  /** One thread of piotrosky.py:85: it runs the evaluation, and an
      exception ends the thread without reaching its caller, which sees only
      the entry left behind. */
  method RunThread(fetch: Fetch) returns (flags: Flags)
    ensures flags == CriteriaFlags(fetch)
  {
    var status;
    flags, status := FillInfosByTicket(fetch);
  }

  /** Evaluates every ticker of the universe into one entry per ticker. The
      program runs one thread per ticker writing disjoint keys, so building
      the map one ticker after another yields the same map. */
  method FillInfos(tickers: seq<string>, responses: map<string, Fetch>)
    returns (infos: map<string, Flags>)
    requires forall t :: t in tickers ==> t in responses
    ensures infos.Keys == set t | t in tickers
    ensures forall t :: t in infos ==> infos[t] == CriteriaFlags(responses[t])
  {
    infos := map[];
    var i := 0;
    while i < |tickers|
      invariant 0 <= i <= |tickers|
      invariant forall t :: t in infos <==> t in tickers[..i]
      invariant forall t :: t in infos ==> t in responses && infos[t] == CriteriaFlags(responses[t])
    {
      var ticker := tickers[i];
      var flags := RunThread(responses[ticker]);
      infos := infos[ticker := flags];
      assert tickers[..i + 1] == tickers[..i] + [ticker];
      i := i + 1;
    }
    assert tickers[..i] == tickers;
  }
}

=== FILE: indicators.dfy ===
/** The indicator records the analytics provider returns for one ticker, and
    how the two responses are joined into one history
    (piotrosky.py:104-115). A record is a decoded JSON object: each key the
    criteria read may be absent, `null`, or a number. Only comparisons are
    ever made between the numbers, so they are mathematical reals here. */
module Indicators {

  /** The keys the criteria read, one per provider field name. */
  datatype Key =
    | Roa           // "roa": return on assets
    | Fco           // "fco": operating cash flow
    | LucroLiquido  // "lucroLiquido": net income
    | Dlpl          // "dlpl": net debt over equity (leverage)
    | LiqCorrent    // "liqCorrent": current ratio
    | QntAcoes      // "qntAcoes": number of shares
    | MargBruta     // "margBruta": gross margin
    | GiroAtivos    // "giroAtivos": asset turnover

  /** A JSON value under one of those keys. */
  datatype Field = Null | Num(x: real)

  /** One reporting period: the keys it carries and their values. A key
      missing from the map is missing from the JSON object. */
  type Record = map<Key, Field>

  /** A record carrying a number under every key the criteria read. */
  ghost predicate Numeric(r: Record) {
    forall k: Key :: k in r && r[k].Num?
  }

  /** What the two requests for a ticker produced: the decoded "dashboard"
      and "yearly" record lists, or a failure of either request or of its
      decoding, which ends the ticker's evaluation before any criterion is
      assigned. */
  datatype Fetch =
    | Fetched(dashboard: seq<Record>, yearly: seq<Record>)
    | FetchFailed

  /** The history the criteria read: the dashboard records extended by the
      yearly ones, so record 0 is the current period and record 1 the prior
      one; a failed fetch reaches no history at all. */
  function HistoryOf(f: Fetch): (h: seq<Record>)
    ensures f.Fetched? ==> |h| == |f.dashboard| + |f.yearly|
    ensures f.FetchFailed? ==> h == []
  {
    match f
    case Fetched(dashboard, yearly) => dashboard + yearly
    case FetchFailed => []
  }

  /** Which response the current and prior records come from: the current
      record is the first dashboard record unless the dashboard is empty, and
      the prior record is the first yearly record exactly when the dashboard
      holds a single record. */
  lemma CurrentAndPrior(dashboard: seq<Record>, yearly: seq<Record>)
    ensures var h := HistoryOf(Fetched(dashboard, yearly));
      && (|h| >= 1 ==> h[0] == if |dashboard| >= 1 then dashboard[0] else yearly[0])
      && (|h| >= 2 ==> h[1] == if |dashboard| >= 2 then dashboard[1]
                               else if |dashboard| == 1 then yearly[0]
                               else yearly[1])
  {
  }
}

=== FILE: piotrosky.dfy ===
/** The program end to end (piotrosky.py:39-63, 172-180): keep the rows
    quoted above zero, reset their ranking, evaluate every ticker, add the
    rating columns, then sort and number the rows. The listing and the
    provider's responses are inputs. */
module Piotrosky {
  import opened Indicators
  import opened Criteria
  import opened Scoring
  import opened Table
  import opened Ranking
  import Seqs

  /** What a listing row becomes once rated: ranking 0, the criteria of its
      ticker's response in the criterion columns and their count as score. */
  function Rated(u: Row, responses: map<string, Fetch>): (x: Row)
    requires u.ticker in responses
    ensures x.flags == CriteriaFlags(responses[u.ticker])
    ensures x.score == |Satisfied(x.flags)| && 0 <= x.score <= 9
    ensures x.ranking == 0
    ensures x.ticker == u.ticker && x.price == u.price && x.market == u.market
  {
    var f := CriteriaFlags(responses[u.ticker]);
    ScoreIsCount(f);
    u.(ranking := 0, score := Score(f), flags := f)
  }

  function RatedAll(rows: seq<Row>, responses: map<string, Fetch>): (r: seq<Row>)
    requires forall i :: 0 <= i < |rows| ==> rows[i].ticker in responses
    ensures |r| == |rows|
    ensures forall i :: 0 <= i < |rows| ==> r[i] == Rated(rows[i], responses)
  {
    seq(|rows|, i requires 0 <= i < |rows| => Rated(rows[i], responses))
  }

  /** Every ticker quoted above zero has a response. */
  predicate Covered(universe: seq<Row>, responses: map<string, Fetch>) {
    forall i :: 0 <= i < |universe| && universe[i].price > 0.0 ==> universe[i].ticker in responses
  }

  /** The table before sorting (piotrosky.py:39-63): the rows quoted above
      zero, in listing order, each rated from its ticker's response. */
  method PopulateShares(universe: seq<Row>, responses: map<string, Fetch>) returns (shares: seq<Row>)
    requires Covered(universe, responses)
    ensures forall i :: 0 <= i < |FilterPositive(universe)| ==> FilterPositive(universe)[i].ticker in responses
    ensures shares == RatedAll(FilterPositive(universe), responses)
  {
    var positive := FilterPositive(universe);
    PositiveCovered(universe, responses);
    var listed := SetRanking(positive, 0);
    var tickers := Tickers(listed);
    var infos := FillInfos(tickers, responses);
    assert forall i :: 0 <= i < |listed| ==> listed[i].ticker in infos by {
      forall i | 0 <= i < |listed| ensures listed[i].ticker in infos {
        assert tickers[i] in tickers;
      }
    }
    shares := AddRatings(listed, infos);
    RatedRows(positive, listed, infos, responses);
  }

  /** Rating the listed rows from entries that are their tickers' criteria
      rates each row from its ticker's response. */
  lemma RatedRows(positive: seq<Row>, listed: seq<Row>, infos: map<string, Flags>, responses: map<string, Fetch>)
    requires forall i :: 0 <= i < |positive| ==> positive[i].ticker in responses
    requires listed == SetRanking(positive, 0)
    requires forall i :: 0 <= i < |listed| ==> listed[i].ticker in infos
    requires forall t :: t in infos ==> t in responses && infos[t] == CriteriaFlags(responses[t])
    ensures AddRatings(listed, infos) == RatedAll(positive, responses)
  {
  }

  lemma PositiveCovered(universe: seq<Row>, responses: map<string, Fetch>)
    requires Covered(universe, responses)
    ensures forall i :: 0 <= i < |FilterPositive(universe)| ==> FilterPositive(universe)[i].ticker in responses
  {
  }

  /** A row that carries `u`'s listing columns, ranking 0, the criteria of
      `u`'s ticker and their count is `u` rated. */
  lemma IsRated(x: Row, u: Row, responses: map<string, Fetch>)
    requires u.ticker in responses
    requires x.ticker == u.ticker && x.price == u.price && x.market == u.market && x.ranking == 0
    requires x.flags == CriteriaFlags(responses[u.ticker])
    requires x.score == |Satisfied(x.flags)|
    ensures x == Rated(u, responses)
  {
    ScoreIsCount(x.flags);
  }

  /** The final table: sorted by score then quote, numbered 1..n, and up to
      the ranking column a permutation of the rated rows quoted above zero.
      Every row scores between 0 and 9, and a ticker whose fetch failed
      scores 0 with every criterion false while the others keep theirs. */
  method RankUniverse(universe: seq<Row>, responses: map<string, Fetch>) returns (table: seq<Row>)
    requires Covered(universe, responses)
    ensures forall i :: 0 <= i < |FilterPositive(universe)| ==> FilterPositive(universe)[i].ticker in responses
    ensures Sorted(table)
    ensures forall i :: 0 <= i < |table| ==> table[i].ranking == i + 1
    ensures multiset(SetRanking(table, 0)) == multiset(RatedAll(FilterPositive(universe), responses))
    ensures forall i :: 0 <= i < |table| ==> table[i].price > 0.0
    ensures forall i :: 0 <= i < |table| ==>
      table[i].ticker in responses && table[i].flags == CriteriaFlags(responses[table[i].ticker])
    ensures forall i :: 0 <= i < |table| ==> 0 <= table[i].score <= 9
    ensures forall i :: 0 <= i < |table| && responses[table[i].ticker].FetchFailed? ==>
      table[i].score == 0 && table[i].flags == AllFalse
  {
    var shares := PopulateShares(universe, responses);
    table := Rank(shares);
    var listed := FilterPositive(universe);
    assert SetRanking(shares, 0) == shares;
    forall i | 0 <= i < |table|
      ensures table[i].price > 0.0
      ensures table[i].ticker in responses && table[i].flags == CriteriaFlags(responses[table[i].ticker])
      ensures 0 <= table[i].score <= 9
      ensures responses[table[i].ticker].FetchFailed? ==> table[i].score == 0 && table[i].flags == AllFalse
    {
      var j := Seqs.Origin(SetRanking(table, 0), shares, i);
      assert listed[j] in listed;
      RankedRow(table[i], listed[j], responses);
    }
  }

  /** A row that is, whatever its ranking, a rated row quoted above zero
      carries its ticker's criteria and a score between 0 and 9, which is 0
      with every criterion false when its ticker's fetch failed. */
  lemma RankedRow(x: Row, u: Row, responses: map<string, Fetch>)
    requires u.ticker in responses && u.price > 0.0
    requires x.(ranking := 0) == Rated(u, responses)
    ensures x.price > 0.0
    ensures x.ticker in responses && x.flags == CriteriaFlags(responses[x.ticker])
    ensures 0 <= x.score <= 9
    ensures responses[x.ticker].FetchFailed? ==> x.score == 0 && x.flags == AllFalse
  {
    ScoreIsCount(x.flags);
    ScoreZero(x.flags);
  }

  /** The ordering example: A quoted 10 and B quoted 5 both score 9, C quoted
      10 scores 3; B ranks first (cheaper at equal score), then A, then C. */
  lemma ExampleRanking(a: Row, b: Row, c: Row)
    requires a.price == 10.0 && a.score == 9
    requires b.price == 5.0 && b.score == 9
    requires c.price == 10.0 && c.score == 3
    ensures Rank([a, b, c]) == [b.(ranking := 1), a.(ranking := 2), c.(ranking := 3)]
  {
    ExampleSort(a, b, c);
    var r := AssignRanking([b, a, c]);
    assert r[0] == b.(ranking := 1) && r[1] == a.(ranking := 2) && r[2] == c.(ranking := 3);
  }

  lemma ExampleSort(a: Row, b: Row, c: Row)
    requires a.price == 10.0 && a.score == 9
    requires b.price == 5.0 && b.score == 9
    requires c.price == 10.0 && c.score == 3
    ensures SortRows([a, b, c]) == [b, a, c]
  {
    assert [a, b, c][1..] == [b, c];
    ExampleSortTail(a, b, c);
    ExampleInsert(a, b, c);
  }

  lemma ExampleSortTail(a: Row, b: Row, c: Row)
    requires b.price == 5.0 && b.score == 9
    requires c.price == 10.0 && c.score == 3
    ensures SortRows([b, c]) == [b, c]
  {
    assert [b, c][1..] == [c];
    assert [c][1..] == [];
    assert SortRows([c]) == [c];
  }

  lemma ExampleInsert(a: Row, b: Row, c: Row)
    requires a.price == 10.0 && a.score == 9
    requires b.price == 5.0 && b.score == 9
    requires c.price == 10.0 && c.score == 3
    ensures Insert(a, [b, c]) == [b, a, c]
  {
    assert [b, c][1..] == [c];
    assert Insert(a, [c]) == [a, c];
  }
}

=== FILE: ranking.dfy ===
/** Sorting the table by score (descending) then quote (ascending) and
    numbering the rows (piotrosky.py:178-180). The program's two-key sort is
    stable; the insertion sort here produces that order, and `SortStable`
    states the order of rows equal on both keys. */
module Ranking {
  import opened Table
  import Seqs

  /** `a` may precede `b`: a higher score, or the same score and a quote no
      higher. */
  predicate InOrder(a: Row, b: Row) {
    a.score > b.score || (a.score == b.score && a.price <= b.price)
  }

  predicate Sorted(rows: seq<Row>) {
    forall i, j :: 0 <= i < j < |rows| ==> InOrder(rows[i], rows[j])
  }

  /** `InOrder` is a total preorder. */
  lemma InOrderTotalPreorder()
    ensures forall a :: InOrder(a, a)
    ensures forall a, b :: InOrder(a, b) || InOrder(b, a)
    ensures forall a, b, c :: InOrder(a, b) && InOrder(b, c) ==> InOrder(a, c)
  {
  }

  /** Inserts `x` before the first row it may precede. */
  function Insert(x: Row, rows: seq<Row>): (r: seq<Row>)
    requires Sorted(rows)
    ensures Sorted(r)
    ensures multiset(r) == multiset(rows) + multiset{x}
  {
    if rows == [] || InOrder(x, rows[0]) then
      SortedCons(x, rows);
      [x] + rows
    else
      assert rows == [rows[0]] + rows[1..];
      var tail := Insert(x, rows[1..]);
      HeadPrecedes(x, rows, tail);
      SortedCons(rows[0], tail);
      [rows[0]] + tail
  }

  /** When `x` goes after the head of a sorted table, that head may precede
      every row of the rest with `x` inserted. */
  lemma HeadPrecedes(x: Row, rows: seq<Row>, tail: seq<Row>)
    requires Sorted(rows) && rows != [] && !InOrder(x, rows[0])
    requires multiset(tail) == multiset(rows[1..]) + multiset{x}
    ensures forall y :: y in tail ==> InOrder(rows[0], y)
  {
    forall y | y in tail ensures InOrder(rows[0], y) {
      assert y in multiset(tail);
      if y != x {
        var j :| 0 <= j < |rows[1..]| && rows[1..][j] == y;
        assert rows[j + 1] == y;
      }
    }
  }

  /** A row that may precede every row of a sorted table (or just its first
      one) can be put in front of it. */
  lemma SortedCons(x: Row, rows: seq<Row>)
    requires Sorted(rows)
    requires (forall y :: y in rows ==> InOrder(x, y)) || (rows != [] && InOrder(x, rows[0]))
    ensures Sorted([x] + rows)
  {
  }

  /** Orders the rows by (score descending, quote ascending). */
  function SortRows(rows: seq<Row>): (r: seq<Row>)
    ensures Sorted(r)
    ensures multiset(r) == multiset(rows)
  {
    if rows == [] then []
    else
      assert rows == [rows[0]] + rows[1..];
      Insert(rows[0], SortRows(rows[1..]))
  }

  /** Numbers the rows 1, 2, ... in table order, touching nothing else. */
  function AssignRanking(rows: seq<Row>): (r: seq<Row>)
    ensures |r| == |rows|
    ensures forall i :: 0 <= i < |r| ==> r[i] == rows[i].(ranking := i + 1)
  {
    seq(|rows|, i requires 0 <= i < |rows| => rows[i].(ranking := i + 1))
  }

  /** Sort then number: the rows are a permutation of the input up to the
      ranking column, sorted, and numbered 1..n; a strictly higher score
      always has a strictly smaller ranking. */
  function Rank(rows: seq<Row>): (r: seq<Row>)
    ensures |r| == |rows|
    ensures Sorted(r)
    ensures forall i :: 0 <= i < |r| ==> r[i].ranking == i + 1
    ensures multiset(SetRanking(r, 0)) == multiset(SetRanking(rows, 0))
    ensures forall i, j :: 0 <= i < |r| && 0 <= j < |r| && r[i].score > r[j].score ==> r[i].ranking < r[j].ranking
  {
    var sorted := SortRows(rows);
    var r := AssignRanking(sorted);
    assert SetRanking(r, 0) == SetRanking(sorted, 0);
    SortPermutation(rows, 0);
    assert |sorted| == |rows| by {
      assert |multiset(sorted)| == |multiset(rows)|;
    }
    r
  }

  /** Up to the ranking column, sorting only permutes the rows. */
  lemma SortPermutation(rows: seq<Row>, value: int)
    ensures multiset(SetRanking(SortRows(rows), value)) == multiset(SetRanking(rows, value))
  {
    var sorted := SortRows(rows);
    SetRankingIsMap(sorted, value);
    SetRankingIsMap(rows, value);
    Seqs.MapPermutation(sorted, rows, WithRanking(value));
  }

  /** The rows with the same score and the same quote as `k`. */
  function SameKeys(k: Row): Row -> bool {
    (r: Row) => r.score == k.score && r.price == k.price
  }

  /** Among the rows of one (score, quote) pair, inserting `x` puts it
      before those already there. */
  lemma {:induction false} InsertStable(x: Row, rows: seq<Row>, k: Row)
    requires Sorted(rows)
    ensures Seqs.Filter(Insert(x, rows), SameKeys(k)) == Seqs.Filter([x] + rows, SameKeys(k))
  {
    if rows != [] && !InOrder(x, rows[0]) {
      var head, tail := rows[0], rows[1..];
      assert rows == [head] + tail;
      InsertStable(x, tail, k);
      assert Insert(x, rows) == [head] + Insert(x, tail);
      Seqs.FilterCons(head, Insert(x, tail), SameKeys(k));
      Seqs.FilterCons(x, tail, SameKeys(k));
      Seqs.FilterCons(x, rows, SameKeys(k));
      Seqs.FilterCons(head, tail, SameKeys(k));
      assert !(SameKeys(k)(x) && SameKeys(k)(head));
    }
  }

  /** The sort is stable: the rows that share a score and a quote keep their
      relative order. */
  lemma {:induction false} SortStable(rows: seq<Row>, k: Row)
    ensures Seqs.Filter(SortRows(rows), SameKeys(k)) == Seqs.Filter(rows, SameKeys(k))
  {
    if rows != [] {
      var head, tail := rows[0], rows[1..];
      assert rows == [head] + tail;
      SortStable(tail, k);
      InsertStable(head, SortRows(tail), k);
      Seqs.FilterCons(head, SortRows(tail), SameKeys(k));
      Seqs.FilterCons(head, tail, SameKeys(k));
    }
  }

  /** The ranked table keeps the listing order of the rows that share a
      score and a quote, whatever ranking they are given. */
  lemma RankStable(rows: seq<Row>, k: Row)
    ensures Seqs.Filter(SetRanking(Rank(rows), 0), SameKeys(k)) == Seqs.Filter(SetRanking(rows, 0), SameKeys(k))
  {
    var sorted := SortRows(rows);
    assert SetRanking(Rank(rows), 0) == SetRanking(sorted, 0);
    FilterSetRanking(sorted, k);
    FilterSetRanking(rows, k);
    SortStable(rows, k);
  }

  /** Resetting the ranking column commutes with selecting one (score,
      quote) pair. */
  lemma {:induction false} FilterSetRanking(rows: seq<Row>, k: Row)
    ensures Seqs.Filter(SetRanking(rows, 0), SameKeys(k)) == SetRanking(Seqs.Filter(rows, SameKeys(k)), 0)
  {
    if rows != [] {
      var head, tail := rows[0], rows[1..];
      assert rows == [head] + tail;
      FilterSetRanking(tail, k);
      SetRankingCons(head, tail, 0);
      Seqs.FilterCons(head.(ranking := 0), SetRanking(tail, 0), SameKeys(k));
      Seqs.FilterCons(head, tail, SameKeys(k));
      var rest := Seqs.Filter(tail, SameKeys(k));
      SetRankingCons(head, rest, 0);
    }
  }

  /** Sorting rows already in order leaves them where they are. */
  lemma {:induction false} SortSortedIsIdentity(rows: seq<Row>)
    requires Sorted(rows)
    ensures SortRows(rows) == rows
  {
    if rows != [] {
      SortSortedIsIdentity(rows[1..]);
      assert rows == [rows[0]] + rows[1..];
    }
  }

  /** Ranking a ranked table again changes nothing. */
  lemma RankIdempotent(rows: seq<Row>)
    ensures Rank(Rank(rows)) == Rank(rows)
  {
    var once := Rank(rows);
    SortSortedIsIdentity(once);
  }
}

=== FILE: scoring.dfy ===
/** The Piotroski score of one entry: the sum of its nine flags counted as
    0 or 1, added in the order the program adds them
    (piotrosky.py:147-163). */
module Scoring {
  import opened Criteria
  import Seqs

  function BoolToInt(b: bool): (n: nat)
    ensures n == 1 <==> b
    ensures n <= 1
  {
    if b then 1 else 0
  }

  /** The score of an entry: its flags counted as 1 or 0 and added in
      `Order`. */
  function Score(f: Flags): (s: nat)
    ensures s <= |Order|
  {
    Seqs.CountIf(Order, Holds(f))
  }

  /** The entry as a test on criteria. */
  function Holds(f: Flags): Criterion -> bool {
    c => Get(f, c)
  }

  /** The criteria an entry satisfies. */
  function Satisfied(f: Flags): (s: set<Criterion>)
    ensures forall c :: c in s <==> Get(f, c)
  {
    set c | c in Order && Get(f, c)
  }

  /** Every criterion appears in `Order`, and there are nine of them. */
  lemma NineCriteria()
    ensures forall c :: c in Order
    ensures |set c | c in Order| == 9
  {
    forall c ensures c in Order {
      assert Order[Position(c)] == c;
    }
    OrderIndexes();
    Seqs.DistinctCardinality(Order);
  }

  /** The score is the number of satisfied criteria, hence between 0 and 9. */
  lemma ScoreIsCount(f: Flags)
    ensures Score(f) == |Satisfied(f)|
    ensures 0 <= Score(f) <= 9
  {
    OrderIndexes();
    assert Seqs.Distinct(Order);
    Seqs.CountIfIsCardinality(Order, Holds(f));
    assert Seqs.Selected(Order, Holds(f)) == Satisfied(f);
    NineCriteria();
    Cardinality(Satisfied(f), set c | c in Order);
  }

  /** The score is 0 exactly for the all-false entry. */
  lemma ScoreZero(f: Flags)
    ensures Score(f) == 0 <==> f == AllFalse
  {
    ScoreIsCount(f);
    if Score(f) == 0 {
      assert Satisfied(f) == {};
      forall c ensures Get(f, c) == Get(AllFalse, c) {
        assert c !in Satisfied(f);
      }
      FlagsExtensional(f, AllFalse);
    }
    if f == AllFalse {
      assert Satisfied(f) == {};
    }
  }

  /** The score is 9 exactly when every criterion holds. */
  lemma ScoreNine(f: Flags)
    ensures Score(f) == 9 <==> forall c :: Get(f, c)
  {
    ScoreIsCount(f);
    NineCriteria();
    var all := set c | c in Order;
    if Score(f) == 9 {
      SubsetOfSameSize(Satisfied(f), all);
      forall c ensures Get(f, c) {
        assert c in all;
      }
    }
    if forall c :: Get(f, c) {
      assert Satisfied(f) == all;
    }
  }

  lemma Cardinality(a: set<Criterion>, b: set<Criterion>)
    requires a <= b
    ensures |a| <= |b|
  {
    assert b == a + (b - a);
  }

  lemma SubsetOfSameSize(a: set<Criterion>, b: set<Criterion>)
    requires a <= b && |a| == |b|
    ensures a == b
  {
    assert b == a + (b - a);
    assert |b - a| == 0;
  }

  /** Each criterion can be switched on alone: the entry with only that key
      set scores 1, and the key set is exactly that criterion. */
  lemma SingleCriterion(c: Criterion)
    ensures Score(Set(AllFalse, c, true)) == 1
    ensures Satisfied(Set(AllFalse, c, true)) == {c}
  {
    var f := Set(AllFalse, c, true);
    ScoreIsCount(f);
    assert Satisfied(f) == {c};
  }
}

=== FILE: seqs.dfy ===
/** Order-preserving selection over sequences, shared by the row filter and
    the column reordering. */
module Seqs {

  /** The elements of `s` that satisfy `keep`, in their original order. */
  function Filter<T(!new)>(s: seq<T>, keep: T -> bool): (r: seq<T>)
    ensures |r| <= |s|
    ensures forall x :: x in r <==> x in s && keep(x)
    ensures forall i :: 0 <= i < |r| ==> keep(r[i])
  {
    if s == [] then []
    else if keep(s[0]) then [s[0]] + Filter(s[1..], keep)
    else Filter(s[1..], keep)
  }

  /** Filtering keeps every occurrence of a selected element and drops every
      occurrence of the others. */
  lemma {:induction false} FilterMultiset<T(!new)>(s: seq<T>, keep: T -> bool)
    ensures forall x :: multiset(Filter(s, keep))[x] == if keep(x) then multiset(s)[x] else 0
  {
    if s != [] {
      FilterMultiset(s[1..], keep);
      assert s == [s[0]] + s[1..];
    }
  }

  /** Filtering a concatenation filters each part and keeps them in order:
      no selected element moves past another one. */
  lemma {:induction false} FilterAppend<T(!new)>(a: seq<T>, b: seq<T>, keep: T -> bool)
    ensures Filter(a + b, keep) == Filter(a, keep) + Filter(b, keep)
  {
    if a == [] {
      assert a + b == b;
    } else {
      assert (a + b)[1..] == a[1..] + b;
      FilterAppend(a[1..], b, keep);
    }
  }

  /** Filtering a list with one element in front. */
  lemma FilterCons<T(!new)>(x: T, s: seq<T>, keep: T -> bool)
    ensures Filter([x] + s, keep) == (if keep(x) then [x] else []) + Filter(s, keep)
  {
    assert ([x] + s)[0] == x;
    assert ([x] + s)[1..] == s;
  }

  /** Filtering twice with the same test changes nothing the second time. */
  lemma {:induction false} FilterIdempotent<T(!new)>(s: seq<T>, keep: T -> bool)
    ensures Filter(Filter(s, keep), keep) == Filter(s, keep)
  {
    if s != [] {
      FilterIdempotent(s[1..], keep);
    }
  }

  /** Nothing is selected from a sequence none of whose elements passes. */
  lemma FilterNone<T(!new)>(s: seq<T>, keep: T -> bool)
    requires forall x :: x in s ==> !keep(x)
    ensures Filter(s, keep) == []
  {
    if Filter(s, keep) != [] {
      assert Filter(s, keep)[0] in Filter(s, keep);
    }
  }

  /** How many elements of `s` satisfy `p`, adding 1 or 0 per element from
      left to right. */
  function CountIf<T>(s: seq<T>, p: T -> bool): (n: nat)
    ensures n <= |s|
  {
    if s == [] then 0
    else CountIf(s[..|s| - 1], p) + (if p(s[|s| - 1]) then 1 else 0)
  }

  ghost predicate Distinct<T>(s: seq<T>) {
    forall i, j :: 0 <= i < j < |s| ==> s[i] != s[j]
  }

  /** The distinct elements of `s` that satisfy `p`. */
  ghost function Selected<T>(s: seq<T>, p: T -> bool): set<T> {
    set x | x in s && p(x)
  }

  /** Over a list without repetitions the count is the number of distinct
      elements that satisfy `p`. */
  lemma {:induction false} CountIfIsCardinality<T>(s: seq<T>, p: T -> bool)
    requires Distinct(s)
    ensures CountIf(s, p) == |Selected(s, p)|
  {
    if s != [] {
      var init := s[..|s| - 1];
      var last := s[|s| - 1];
      DistinctPrefix(s);
      CountIfIsCardinality(init, p);
      SelectedSnoc(init, last, p);
      assert s == init + [last];
    }
  }

  /** Dropping the last entry of a list without repetitions leaves a list
      without repetitions that no longer holds that entry. */
  lemma DistinctPrefix<T>(s: seq<T>)
    requires Distinct(s) && s != []
    ensures Distinct(s[..|s| - 1])
    ensures s[|s| - 1] !in s[..|s| - 1]
  {
    var init := s[..|s| - 1];
    forall k | 0 <= k < |init| ensures init[k] != s[|s| - 1] {
      assert s[k] == init[k];
    }
  }

  lemma SelectedSnoc<T>(s: seq<T>, x: T, p: T -> bool)
    requires x !in s
    ensures |Selected(s + [x], p)| == |Selected(s, p)| + (if p(x) then 1 else 0)
  {
    if p(x) {
      assert Selected(s + [x], p) == Selected(s, p) + {x};
    } else {
      assert Selected(s + [x], p) == Selected(s, p);
    }
  }

  /** A list without repetitions has as many distinct elements as entries. */
  lemma {:induction false} DistinctCardinality<T>(s: seq<T>)
    requires Distinct(s)
    ensures |set x | x in s| == |s|
  {
    if s != [] {
      var init := s[..|s| - 1];
      var last := s[|s| - 1];
      DistinctPrefix(s);
      DistinctCardinality(init);
      assert s == init + [last];
      assert (set x | x in s) == (set x | x in init) + {last};
    }
  }

  /** `f` applied to every element, in order. */
  function Map<T, U>(s: seq<T>, f: T -> U): (r: seq<U>)
    ensures |r| == |s|
  {
    if s == [] then [] else [f(s[0])] + Map(s[1..], f)
  }

  lemma {:induction false} MapAppend<T, U>(a: seq<T>, b: seq<T>, f: T -> U)
    ensures Map(a + b, f) == Map(a, f) + Map(b, f)
  {
    if a != [] {
      assert (a + b)[1..] == a[1..] + b;
      MapAppend(a[1..], b, f);
    } else {
      assert a + b == b;
    }
  }

  /** Applying the same function to both sides of a permutation gives a
      permutation. */
  lemma {:induction false} MapPermutation<T, U>(a: seq<T>, b: seq<T>, f: T -> U)
    requires multiset(a) == multiset(b)
    ensures multiset(Map(a, f)) == multiset(Map(b, f))
  {
    if a == [] {
      assert |b| == |multiset(b)| == 0;
    } else {
      var k := MatchFirst(a, b);
      MapPermutation(a[1..], b[..k] + b[k + 1..], f);
      MapRemoveAt(b, k, f);
      assert Map(a, f) == [f(a[0])] + Map(a[1..], f);
    }
  }

  /** Where the first element of `a` sits in its permutation `b`, and what
      is left on both sides once it is removed. */
  lemma MatchFirst<T>(a: seq<T>, b: seq<T>) returns (k: nat)
    requires multiset(a) == multiset(b) && a != []
    ensures k < |b| && b[k] == a[0]
    ensures multiset(a[1..]) == multiset(b[..k] + b[k + 1..])
  {
    assert a[0] in multiset(b);
    k :| 0 <= k < |b| && b[k] == a[0];
    assert b == b[..k] + [b[k]] + b[k + 1..];
    assert a == [a[0]] + a[1..];
    assert multiset(a) == multiset(a[1..]) + multiset{a[0]};
    MultisetMiddle(b[..k], b[k], b[k + 1..]);
    assert multiset(a[1..]) == multiset(a) - multiset{a[0]};
    assert multiset(b[..k] + b[k + 1..]) == multiset(b) - multiset{b[k]};
  }

  /** Mapping a list is mapping it without one element, plus that element's
      image. */
  lemma MapRemoveAt<T, U>(s: seq<T>, k: nat, f: T -> U)
    requires k < |s|
    ensures multiset(Map(s, f)) == multiset(Map(s[..k] + s[k + 1..], f)) + multiset{f(s[k])}
  {
    assert s == s[..k] + s[k..];
    MapAppend(s[..k], s[k..], f);
    assert s[k..][1..] == s[k + 1..];
    assert Map(s[k..], f) == [f(s[k])] + Map(s[k + 1..], f);
    MapAppend(s[..k], s[k + 1..], f);
  }

  /** Where an element of a list sits in a permutation of it. */
  lemma Origin<T>(a: seq<T>, b: seq<T>, i: nat) returns (j: nat)
    requires multiset(a) == multiset(b) && i < |a|
    ensures j < |b| && b[j] == a[i]
  {
    assert a[i] in multiset(b);
    j :| 0 <= j < |b| && b[j] == a[i];
  }

  lemma MultisetMiddle<T>(left: seq<T>, x: T, right: seq<T>)
    ensures multiset(left + [x] + right) == multiset(left + right) + multiset{x}
  {
  }
}

=== FILE: table.dfy ===
/** The universe table: one row per ticker with its quote, its ranking, the
    score column and the nine criterion columns (piotrosky.py:53-59,
    127-165). */
module Table {
  import opened Criteria
  import opened Scoring
  import Seqs

  /** One row of the table. `price` is the "Cotação" column, `flags` holds
      the nine boolean criterion columns and `market` every other column the
      universe listing supplies (liquidity and the like). */
  datatype Row = Row(
    ticker: string,
    price: real,
    ranking: int,
    score: int,
    flags: Flags,
    market: map<string, real>
  )

  function Tickers(rows: seq<Row>): (ts: seq<string>)
    ensures |ts| == |rows|
    ensures forall i :: 0 <= i < |rows| ==> ts[i] == rows[i].ticker
  {
    if rows == [] then [] else [rows[0].ticker] + Tickers(rows[1..])
  }

  predicate PositivePrice(r: Row) {
    r.price > 0.0
  }

  /** Keeps the rows quoted above zero (piotrosky.py:53). */
  function FilterPositive(rows: seq<Row>): (r: seq<Row>)
    ensures forall x :: x in r <==> x in rows && x.price > 0.0
    ensures forall x :: multiset(r)[x] == if x.price > 0.0 then multiset(rows)[x] else 0
  {
    Seqs.FilterMultiset(rows, PositivePrice);
    Seqs.Filter(rows, PositivePrice)
  }

  /** The filter keeps the relative order of the rows it keeps: filtering a
      concatenation is the concatenation of the filtered parts, and a
      filtered table filters to itself. */
  lemma FilterPositiveOrder(a: seq<Row>, b: seq<Row>)
    ensures FilterPositive(a + b) == FilterPositive(a) + FilterPositive(b)
    ensures FilterPositive(FilterPositive(a)) == FilterPositive(a)
  {
    Seqs.FilterAppend(a, b, PositivePrice);
    Seqs.FilterIdempotent(a, PositivePrice);
  }

  /** Sets the ranking column of every row to `value`, touching nothing else. */
  function SetRanking(rows: seq<Row>, value: int): (r: seq<Row>)
    ensures |r| == |rows|
    ensures forall i :: 0 <= i < |r| ==> r[i] == rows[i].(ranking := value)
  {
    seq(|rows|, i requires 0 <= i < |rows| => rows[i].(ranking := value))
  }

  lemma SetRankingCons(x: Row, rows: seq<Row>, value: int)
    ensures SetRanking([x] + rows, value) == [x.(ranking := value)] + SetRanking(rows, value)
  {
  }

  /** The update `SetRanking` applies to each row. */
  function WithRanking(value: int): Row -> Row {
    (row: Row) => row.(ranking := value)
  }

  /** `SetRanking` applies `WithRanking` row by row, so it carries
      permutations to permutations. */
  lemma {:induction false} SetRankingIsMap(rows: seq<Row>, value: int)
    ensures SetRanking(rows, value) == Seqs.Map(rows, WithRanking(value))
  {
    if rows != [] {
      SetRankingIsMap(rows[1..], value);
      assert SetRanking(rows, value) == [rows[0].(ranking := value)] + SetRanking(rows[1..], value);
    }
  }

  /** Initialises the score to 0 and every criterion column to `false`
      (piotrosky.py:132-142): each row starts satisfying no criterion, with
      a score that already counts its (empty) criterion columns. */
  function AddPiotroskyColumns(rows: seq<Row>): (r: seq<Row>)
    ensures |r| == |rows|
    ensures forall i :: 0 <= i < |r| ==> r[i] == rows[i].(score := 0, flags := AllFalse)
    ensures forall i :: 0 <= i < |r| ==> Satisfied(r[i].flags) == {} && r[i].score == Score(r[i].flags)
  {
    ScoreZero(AllFalse);
    seq(|rows|, i requires 0 <= i < |rows| => rows[i].(score := 0, flags := AllFalse))
  }

  /** One statement pair of the program: add the flag to the score, copy it
      into its column. */
  function FillStep(row: Row, f: Flags, c: Criterion): (r: Row)
    ensures r.score == row.score + BoolToInt(Get(f, c))
    ensures Get(r.flags, c) == Get(f, c)
    ensures forall d :: d != c ==> Get(r.flags, d) == Get(row.flags, d)
    ensures r.ticker == row.ticker && r.price == row.price && r.ranking == row.ranking && r.market == row.market
  {
    row.(score := row.score + BoolToInt(Get(f, c)), flags := Set(row.flags, c, Get(f, c)))
  }

  /** The row after the first `k` statement pairs. */
  function FillSteps(row: Row, f: Flags, k: nat): (r: Row)
    requires k <= |Order|
    ensures r.ticker == row.ticker && r.price == row.price && r.ranking == row.ranking && r.market == row.market
  {
    if k == 0 then row else FillStep(FillSteps(row, f, k - 1), f, Order[k - 1])
  }

  /** After `k` steps the score has grown by the number of the first `k`
      criteria the entry satisfies. */
  lemma {:induction false} FillStepsScore(row: Row, f: Flags, k: nat)
    requires k <= |Order|
    ensures FillSteps(row, f, k).score == row.score + Seqs.CountIf(Order[..k], Holds(f))
  {
    if k > 0 {
      FillStepsScore(row, f, k - 1);
      var prefix := Order[..k];
      assert prefix[..k - 1] == Order[..k - 1];
    }
  }

  /** After `k` steps the first `k` criterion columns hold the entry's values
      and the later ones are untouched. */
  lemma {:induction false} FillStepsFlags(row: Row, f: Flags, k: nat)
    requires k <= |Order|
    ensures forall c :: Get(FillSteps(row, f, k).flags, c) == if Position(c) < k then Get(f, c) else Get(row.flags, c)
  {
    if k > 0 {
      FillStepsFlags(row, f, k - 1);
      var c := Order[k - 1];
      var before := FillSteps(row, f, k - 1).flags;
      var after := FillSteps(row, f, k).flags;
      assert after == Set(before, c, Get(f, c));
      assert Position(c) == k - 1 by { OrderIndexes(); }
      forall d ensures Get(after, d) == if Position(d) < k then Get(f, d) else Get(row.flags, d) {
        if d != c {
          assert Get(after, d) == Get(before, d);
        }
      }
    }
  }

  /** Filling a row from its entry: the score grows by the entry's score and
      the criterion columns become the entry. */
  lemma FillRow(row: Row, f: Flags)
    ensures FillSteps(row, f, |Order|) == row.(score := row.score + Score(f), flags := f)
  {
    var filled := FillSteps(row, f, |Order|);
    FillStepsScore(row, f, |Order|);
    FillStepsFlags(row, f, |Order|);
    assert Order[..|Order|] == Order;
    FlagsExtensional(filled.flags, f);
  }

  /** Copies each row's entry into its score and criterion columns
      (piotrosky.py:144-165): every row's score grows by the number of
      criteria its ticker's entry satisfies, its criterion columns become
      that entry, and its other columns stay as they were. Every row's ticker
      must have an entry. */
  function FillSpecialInfos(rows: seq<Row>, infos: map<string, Flags>): (r: seq<Row>)
    requires forall i :: 0 <= i < |rows| ==> rows[i].ticker in infos
    ensures |r| == |rows|
    ensures forall i :: 0 <= i < |r| ==> r[i].flags == infos[rows[i].ticker]
    ensures forall i :: 0 <= i < |r| ==> r[i].score == rows[i].score + |Satisfied(infos[rows[i].ticker])|
    ensures forall i :: 0 <= i < |r| ==>
      r[i].ticker == rows[i].ticker && r[i].price == rows[i].price &&
      r[i].ranking == rows[i].ranking && r[i].market == rows[i].market
  {
    var r := seq(|rows|, i requires 0 <= i < |rows| => FillSteps(rows[i], infos[rows[i].ticker], |Order|));
    forall i | 0 <= i < |r|
      ensures r[i] == rows[i].(score := rows[i].score + |Satisfied(infos[rows[i].ticker])|, flags := infos[rows[i].ticker])
    {
      FillRow(rows[i], infos[rows[i].ticker]);
      ScoreIsCount(infos[rows[i].ticker]);
    }
    r
  }

  /** Adds the rating columns (piotrosky.py:127-129): each row ends with the
      score of its ticker's entry, between 0 and 9, and with the entry in its
      criterion columns; ticker, quote, ranking and the market columns are
      those it had. */
  function AddRatings(rows: seq<Row>, infos: map<string, Flags>): (r: seq<Row>)
    requires forall i :: 0 <= i < |rows| ==> rows[i].ticker in infos
    ensures |r| == |rows|
    ensures forall i :: 0 <= i < |r| ==> r[i].flags == infos[rows[i].ticker]
    ensures forall i :: 0 <= i < |r| ==> r[i].score == |Satisfied(r[i].flags)|
    ensures forall i :: 0 <= i < |r| ==> 0 <= r[i].score <= 9
    ensures forall i :: 0 <= i < |r| ==>
      r[i].ticker == rows[i].ticker && r[i].price == rows[i].price &&
      r[i].ranking == rows[i].ranking && r[i].market == rows[i].market
  {
    var r := FillSpecialInfos(AddPiotroskyColumns(rows), infos);
    forall i | 0 <= i < |r| ensures 0 <= r[i].score <= 9 {
      ScoreIsCount(infos[rows[i].ticker]);
    }
    r
  }
}

=== FILE: wrappers.dfy ===
/** An optional value, for the operations of the model that can fail where
    the program would raise (a missing column). */
module Wrappers {

  datatype Option<+T> = None | Some(value: T)
}
